=== FILE: README.md ===
# Storj S3 gateway adapter, modelled in Dafny

This project models the layer that exposes Storj's bucket store and
per-bucket object store to an S3 (minio) gateway host: the `storjObjects`
methods of `pkg/miniogw/gateway-storj.go`. The model covers what the
adapter decides, apart from the gaps listed under "Left out" below. It
covers which collaborator calls it makes, and in what order. It covers how it translates store errors into S3 errors and how it
turns one object-store listing page into a V1 or V2 listing record. It
covers the metadata it stores on put and copy, the range it reads on get,
and how it pages through the bucket store to list all buckets.

The collaborators are abstract state plus a backend record:

- `Store.State` maps bucket names to their metadata and maps each bucket
  name to an object table, which maps paths to object metadata.
- `Store.Backend.faults` names the collaborator calls that fail, with
  the error each one returns. This is how transport or store failures
  enter the model. A call that is not named does its normal work on the
  state.
- `Store.Backend.lister` answers object-store `List` queries. Ordering,
  prefix grouping and page limits belong to the object store, so the
  adapter only consumes what the lister returns.
- `Store.Backend.bucketPageSize` is the bucket store's default page size.
- Operations that change state return an `Outcome`: the result, the new
  state, and the list of collaborator calls made. The call list is how
  "no `Put` happens" is stated.

Paths follow `paths.Path`. A path is its sequence of segments. `New`
splits a key at every `/`, and the empty key gives the empty path.
`String` joins the segments with `/`. `Prepend` puts the prefix's
segments first.

Files: `Wrappers.dfy` (Option/Result), `Paths.dfy`, `Errors.dfy`,
`Store.dfy`, `Host.dfy` (the records returned to the host),
`Listing.dfy`, `Buckets.dfy`, `Objects.dfy`.

Three behaviours of the code that the model keeps:

- Decoding a V2 token strips nothing: the whole token goes to
  `paths.New`, sentinel included (`Listing.TokenFeedsBack`).
- Only the delimiter error and the object-store-open error echo the
  incoming continuation token. A failing `List` returns the zero record,
  so no token comes back (`Listing.ListObjectsV2`).
- `GetObject` does not translate not-found: a missing object comes back
  as the store's raw not-found error (`Objects.MissingObjectErrors`).

## Model

| member | source | states |
|---|---|---|
| Paths.StringOfNew | pkg/miniogw/gateway-storj.go:259 | with `New` as a plain split, the string form of the path of any key is the key itself, so the V1 fallback marker is the incoming marker |
| Paths.NewOfString | pkg/miniogw/gateway-storj.go:278 | a canonical path survives the trip through its string form and back through `paths.New` |
| Paths.PrependString | pkg/miniogw/gateway-storj.go:232-234 | with `New` as a plain split, the string form of a prepended path is the prefix, a `/` and the path; an empty prefix adds nothing and an empty path adds no separator |
| Paths.TokenDecodes | pkg/miniogw/gateway-storj.go:317 | the string form of a canonical path plus the sentinel decodes to that path with the sentinel on its last segment; nothing is stripped |
| Errors.BucketError | pkg/miniogw/gateway-storj.go:108-115 | a store not-found becomes `BucketNotFound` for that bucket, and every other error passes through unchanged |
| Errors.ObjectError | pkg/miniogw/gateway-storj.go:98-102 | a store not-found becomes `ObjectNotFound` for that bucket and key, and every other error passes through unchanged |
| Listing.ItemNameShape | pkg/miniogw/gateway-storj.go:231-234 | in one-level mode, or with an empty prefix, an item is reported under its own path; in recursive mode under a non-empty prefix it is reported as prefix + "/" + path, with no cleaning of the prefix |
| Listing.Partition | pkg/miniogw/gateway-storj.go:229-249 | the item loop puts each item in exactly one output (the counts add up to the page size), never marks an object as a directory, sets its bucket, and ends every prefix with "/" |
| Listing.PartitionIsFilter | pkg/miniogw/gateway-storj.go:295-315 | the loop's objects are the object items and its prefixes are the prefix items, each translated, in store order |
| Listing.NextMarker | pkg/miniogw/gateway-storj.go:250-260 | the V1 marker is empty unless truncated; when truncated it is the last item's store-relative path, or the incoming marker when the page is empty |
| Listing.NextToken | pkg/miniogw/gateway-storj.go:317-328 | the V2 token is non-empty exactly when the page is truncated and non-empty, and it is then the last item's path followed by exactly one sentinel |
| Listing.V1Query | pkg/miniogw/gateway-storj.go:216-225 | V1 lists recursively iff the delimiter is empty, starts after the marker's path, and passes the prefix and maxKeys on |
| Listing.V2Start | pkg/miniogw/gateway-storj.go:276-282 | a non-empty token is the start even when startAfter is given; startAfter is used only without a token; with neither the start is nil |
| Listing.V2Query | pkg/miniogw/gateway-storj.go:273-290 | V2 lists recursively iff the delimiter is empty, from the V2 start path, with the prefix and maxKeys passed on |
| Listing.V1Info | pkg/miniogw/gateway-storj.go:229-260 | `IsTruncated` equals the store's `more`; a marker appears only when truncated; objects and prefixes are the translated items |
| Listing.V2Info | pkg/miniogw/gateway-storj.go:295-328 | `IsTruncated` equals `more`; the incoming token is echoed; a next token appears only when truncated; objects and prefixes are the translated items |
| Listing.ListObjects | pkg/miniogw/gateway-storj.go:209-263 | an unsupported delimiter, a failed object-store open and a failed `List` each give their own error, and only when all three are absent does the page translate into the V1 record |
| Listing.ListObjectsV2 | pkg/miniogw/gateway-storj.go:266-331 | the same error order as V1; the delimiter and open errors echo the token, the `List` error does not; otherwise the page translates into the V2 record |
| Listing.DelimiterCheckedFirst | pkg/miniogw/gateway-storj.go:212-214 | with an unsupported delimiter both listings answer the same whatever the stores hold or do, and V2 still echoes the token |
| Listing.RecursiveMarkerIsRelative | pkg/miniogw/gateway-storj.go:232-250 | in recursive mode under a non-empty prefix, the V1 marker differs from the name of the last object reported |
| Listing.EmptyTruncatedPage | pkg/miniogw/gateway-storj.go:250-260 | a truncated page with no items gives V1 the incoming marker back and gives V2 no next token |
| Listing.TokenFeedsBack | pkg/miniogw/gateway-storj.go:276-278 | a V2 token fed back as the continuation token starts the next listing at the last item's path with the sentinel still attached, whatever startAfter says |
| Buckets.MakeBucketWithLocation | pkg/miniogw/gateway-storj.go:333-352 | an existing bucket gives `BucketAlreadyExists` with no `Put`; a probe error other than not-found is returned unchanged with no `Put`; on not-found `Put` runs, a failed `Put` returns its error unchanged, and on success exactly that bucket is added and nothing else changes |
| Buckets.DeleteBucket | pkg/miniogw/gateway-storj.go:69-90 | a missing bucket gives `BucketNotFound` after one call; a non-empty probe list gives `BucketNotEmpty` and the bucket stays; a failed object-store open, probe `List` or `Delete` returns that call's error unchanged; the store's `Delete` runs only when the probe list is empty, and success removes exactly that bucket |
| Buckets.GetBucketInfo | pkg/miniogw/gateway-storj.go:105-118 | reports the bucket's name and creation time exactly when the probe succeeds; not-found becomes `BucketNotFound` and other errors pass through |
| Buckets.MakeThenGet | pkg/miniogw/gateway-storj.go:343-351 | a freshly made bucket is visible to `GetBucketInfo` with its creation time, and making it again reports that it exists without a second `Put` |
| Buckets.DeleteLifecycle | pkg/miniogw/gateway-storj.go:71-89 | with a truthful emptiness probe, a bucket with objects is refused and kept, and an empty one is removed and is then not found |
| Buckets.PageStep | pkg/miniogw/gateway-storj.go:191-199 | resuming after the last bucket of the pages so far yields the next buckets in order; a page says "more" exactly when more than a page's worth remain, and it is then full |
| Buckets.AllPages | pkg/miniogw/gateway-storj.go:188-200 | the paging loop ends and returns the bucket store's whole listing in order; it succeeds exactly when none of the pages it requests (page 0 up to `LastPage` of the listing's length) fails, and otherwise returns the error of the first failing page |
| Buckets.ListBuckets | pkg/miniogw/gateway-storj.go:185-207 | every bucket of the store is reported exactly once, in listing order, with its creation time, and nothing else is reported; it succeeds exactly when none of the pages the loop requests fails, and on failure the error is that of the first failing page |
| Objects.SerializeMeta | pkg/miniogw/gateway-storj.go:447-453 | the content type is the "content-type" entry ("" if absent), and the stored map is the input map without that key, with every other entry kept |
| Objects.PutWithMeta | pkg/miniogw/gateway-storj.go:424-440 | a put that succeeds stores exactly the key's path with the upload's size, checksum, time and given metadata, and reports them; a failure changes nothing |
| Objects.PutObject | pkg/miniogw/gateway-storj.go:442-456 | the reported object has the upload's size, the extracted content type and the map without "content-type"; a successful put changes only the key's path in the bucket's table, and a failure changes nothing |
| Objects.OpenObject | pkg/miniogw/gateway-storj.go:120-130 | opening succeeds exactly when neither the object-store open nor `Get` fails and the key's path is stored; the value is then the stored metadata; a failure returns the store's error untranslated, not-found included |
| Objects.RangeLength | pkg/miniogw/gateway-storj.go:141-143 | a length of -1 reaches exactly the end of the object; any other length is kept |
| Objects.GetObject | pkg/miniogw/gateway-storj.go:132-154 | succeeds exactly when the object exists and no call fails; the requested range starts at the offset and runs to the end when the length is -1; a missing object gives the raw not-found error |
| Objects.GetObjectInfo | pkg/miniogw/gateway-storj.go:156-183 | the info is the stored metadata copied field by field; a missing object gives `ObjectNotFound` and other errors pass through |
| Objects.DeleteObject | pkg/miniogw/gateway-storj.go:92-103 | success removes exactly the key's path; a missing object gives `ObjectNotFound`; other errors pass through and change nothing |
| Objects.CopyObject | pkg/miniogw/gateway-storj.go:354-376 | the destination gets the source's size and the content type and user-defined map of the host-supplied source info, as given; a successful copy changes only the destination key's path in the destination bucket's table, and a failure changes nothing |
| Objects.PutThenInfo | pkg/miniogw/gateway-storj.go:430-453 | a put followed by an info read of the same key returns the size, the content type and the map without "content-type" that the put stored |
| Objects.CopyThenInfo | pkg/miniogw/gateway-storj.go:370-375 | an info read of the copy returns the source's size and the content type and user-defined map of the supplied source info, with a "content-type" entry kept, unlike a put |
| Objects.ReadToEnd | pkg/miniogw/gateway-storj.go:141-145 | reading a 100-byte object from offset 40 with length -1 asks for exactly 60 bytes |
| Objects.MissingObjectErrors | pkg/miniogw/gateway-storj.go:127-129 | on a missing object `GetObject` gives the raw not-found error, while `GetObjectInfo` and `DeleteObject` give `ObjectNotFound` |
| Objects.DeleteAfterEmptied | pkg/miniogw/gateway-storj.go:82-89 | a bucket with one object is refused as not empty, and once that object is deleted the bucket can be deleted |

## Left out

- The signal and cancellation goroutines in `SetupCloseHandler` and `putObject` are left out. They are concurrency and process-exit logic with no sequential meaning.
- The check-then-act race in bucket creation is not modelled. Each call runs as an atomic sequence of collaborator calls.
- Bytes are not modelled: `io.Copy`, range contents and `utils.LogClose`. An upload is its size and the checksum the store computes. `CopyObject`'s full read is modelled only through the source's size.
- Path normalisation inside the `paths` package is not modelled, because that package is not part of this model. `New` is a plain split, so empty segments are kept and nothing is cleaned.
- The object store's `List` semantics (ordering, prefix grouping, limit handling, metadata flags) are an opaque function. So strictly increasing order, and the claim that full pagination yields every object once, are not stated.
- Listing idempotence (same arguments, same answer) is not a separate lemma. It follows from the listings being pure functions.
- `fetchOwner` is ignored by the source, so it is not a parameter.
- The bucket store's `GetObjectStore` is a view of the objects under a bucket name. It does no existence check and fails only through an injected fault.
- Faults are keyed by call kind, so within one operation a faulted kind fails every time. For example, both object-store opens in `CopyObject` fail together.
- The bucket store's listing order is an input to `ListBuckets`, and its default page size is assumed positive, so a page that says "more" is never empty. The loop at line 199 would index an empty slice otherwise.
- Buckets.AllPages and Buckets.ListBuckets: termination relies on no bucket having the empty name. The source would loop forever if one did. A page ending with a bucket named "" makes line 199 set `startAfter` to "", and line 191 then lists from the start again. The model requires non-empty names.
- Listing.ItemNameShape: the shape holds only for keys with no empty segment (no leading, trailing or doubled `/`). The model's `New` is a plain split, so a recursive listing under the usual S3 prefix `dir/` reports `dir//name`, while the program's `paths.New` would clean it to `dir/name`.
- Listing.NextMarker: the fallback marker equals the incoming marker only under the plain-split `New`. For a marker with an empty segment, such as `a//b`, the program's `paths.New(marker).String()` would return the cleaned key.
- Paths.StringOfNew: the round trip holds for every key only because `New` does no normalisation. With the program's cleaning `paths.New` it holds only for keys with no empty segment.
- Paths.PrependString: the same restriction applies. The string forms are exact only for a prefix and path with no empty segment.
- Objects.PutObject: the source deletes "content-type" from the caller's own map. The model takes the map by value and does not model that caller-visible side effect.
- Objects.PutWithMeta: on a failed `Put` the source also returns a partly filled `ObjectInfo`. The model returns only the error.
- Objects.PutWithMeta and Objects.PutObject: the zero expiration time that `putObject` passes to `Put` (lines 424-425, 430) is not modelled. The model's stored metadata has no expiration field.
- Objects.GetObject: the ranger's own checks of the offset and length (line 145) are not modelled, because the ranger is not part of this model. The model passes any offset and length on, including a negative length or an offset past the end, and fails only through an injected `RangeRead` fault.
- Objects.GetObject: `rr.Size() - startOffset` is 64-bit arithmetic in the source. Sizes and offsets are unbounded integers here, so overflow is not modelled.
- Timestamps are opaque integers that are only copied.
- Monitoring and logging (`mon.Task`, `log.Println`) are left out.
- The plugin boilerplate is left out: `NewStorjGateway`, `Name`, `NewGatewayLayer`, `Production`, `Shutdown`, `StorageInfo`.
- `MultipartUploads` is not part of this model.

=== FILE: Buckets.dfy ===
/** The bucket directory: `MakeBucketWithLocation`, `DeleteBucket`,
    `GetBucketInfo` and `ListBuckets`. */
module Buckets {
  import opened Wrappers
  import opened Errors
  import opened Store
  import opened Host

  /** The items of the emptiness probe of a bucket. */
  function ProbeItems(st: State, b: Backend, bucket: string): seq<ListItem>
  {
    b.lister(TableOf(st, bucket), EmptinessProbe).items
  }

  /** `MakeBucketWithLocation`: probe with `Get`, and `Put` only when the
      probe says "not found". The location is ignored. */
  function MakeBucketWithLocation(st: State, b: Backend, bucket: string, location: string, now: Time)
    : (r: Outcome<()>)
    ensures |r.calls| > 0 && r.calls[0] == BucketGet
    ensures GetBucket(st, b, bucket).Success? ==> r.result == Failure(BucketAlreadyExists(bucket))
    ensures var probe := GetBucket(st, b, bucket);
      probe.Failure? && probe.error != KeyNotFound ==> r.result == Failure(Passthrough(probe.error))
    ensures BucketPut in r.calls <==> GetBucket(st, b, bucket) == Failure(KeyNotFound)
    ensures GetBucket(st, b, bucket) == Failure(KeyNotFound) && BucketPut in b.faults ==>
      r.result == Failure(Passthrough(b.faults[BucketPut]))
    ensures r.result.Success? <==> GetBucket(st, b, bucket) == Failure(KeyNotFound) && BucketPut !in b.faults
    ensures r.result.Success? ==>
      && r.store.buckets.Keys == st.buckets.Keys + {bucket}
      && r.store.buckets[bucket] == BucketMeta(now)
      && (forall n :: n in st.buckets && n != bucket ==> r.store.buckets[n] == st.buckets[n])
      && r.store.objects == st.objects
    ensures r.result.Failure? ==> r.store == st
  {
    match GetBucket(st, b, bucket)
    case Success(_) => Outcome(Failure(BucketAlreadyExists(bucket)), st, [BucketGet])
    case Failure(e) =>
      if e != KeyNotFound then Outcome(Failure(Passthrough(e)), st, [BucketGet])
      else if BucketPut in b.faults then
        Outcome(Failure(Passthrough(b.faults[BucketPut])), st, [BucketGet, BucketPut])
      else Outcome(Success(()), AddBucket(st, bucket, now), [BucketGet, BucketPut])
  }

  /** `DeleteBucket`: the bucket must exist and a recursive list of at most
      one item must come back empty before the bucket store deletes it. */
  function DeleteBucket(st: State, b: Backend, bucket: string): (r: Outcome<()>)
    ensures GetBucket(st, b, bucket) == Failure(KeyNotFound) ==>
      r.result == Failure(BucketNotFound(bucket)) && r.calls == [BucketGet]
    ensures var probe := GetBucket(st, b, bucket);
      probe.Failure? && probe.error != KeyNotFound ==> r.result == Failure(Passthrough(probe.error))
    ensures GetBucket(st, b, bucket).Success? && GetObjectStore in b.faults ==>
      r.result == Failure(Passthrough(b.faults[GetObjectStore]))
    ensures GetBucket(st, b, bucket).Success? && GetObjectStore !in b.faults && ObjectList in b.faults ==>
      r.result == Failure(Passthrough(b.faults[ObjectList]))
    ensures r.result == Failure(BucketNotEmpty(bucket)) <==>
      && GetBucket(st, b, bucket).Success?
      && GetObjectStore !in b.faults && ObjectList !in b.faults
      && |ProbeItems(st, b, bucket)| > 0
    ensures BucketDelete in r.calls <==>
      && GetBucket(st, b, bucket).Success?
      && GetObjectStore !in b.faults && ObjectList !in b.faults
      && |ProbeItems(st, b, bucket)| == 0
    ensures r.result.Success? <==> BucketDelete in r.calls && BucketDelete !in b.faults
    ensures BucketDelete in r.calls && BucketDelete in b.faults ==>
      r.result == Failure(Passthrough(b.faults[BucketDelete]))
    ensures r.result.Success? ==>
      && bucket in st.buckets
      && r.store.buckets.Keys == st.buckets.Keys - {bucket}
      && (forall n :: n in r.store.buckets ==> r.store.buckets[n] == st.buckets[n])
      && r.store.objects == st.objects
    ensures r.result.Failure? ==> r.store == st
  {
    match GetBucket(st, b, bucket)
    case Failure(e) => Outcome(Failure(BucketError(e, bucket)), st, [BucketGet])
    case Success(_) =>
      match OpenObjects(st, b, bucket)
      case Failure(e) => Outcome(Failure(Passthrough(e)), st, [BucketGet, GetObjectStore])
      case Success(t) =>
        var listed := [BucketGet, GetObjectStore, ObjectList];
        match ListPage(b, t, EmptinessProbe)
        case Failure(e) => Outcome(Failure(Passthrough(e)), st, listed)
        case Success(page) =>
          if |page.items| > 0 then Outcome(Failure(BucketNotEmpty(bucket)), st, listed)
          else if BucketDelete in b.faults then
            Outcome(Failure(Passthrough(b.faults[BucketDelete])), st, listed + [BucketDelete])
          else Outcome(Success(()), RemoveBucket(st, bucket), listed + [BucketDelete])
  }

  /** `GetBucketInfo`. */
  function GetBucketInfo(st: State, b: Backend, bucket: string): (r: Result<BucketInfo, GatewayError>)
    ensures r.Success? <==> GetBucket(st, b, bucket).Success?
    ensures r.Success? ==> bucket in st.buckets && r.value == BucketInfo(bucket, st.buckets[bucket].created)
    ensures GetBucket(st, b, bucket) == Failure(KeyNotFound) ==> r == Failure(BucketNotFound(bucket))
    ensures var probe := GetBucket(st, b, bucket);
      probe.Failure? && probe.error != KeyNotFound ==> r == Failure(Passthrough(probe.error))
  {
    match GetBucket(st, b, bucket)
    case Failure(e) => Failure(BucketError(e, bucket))
    case Success(m) => Success(BucketInfo(bucket, m.created))
  }

  /** A freshly made bucket is visible to `GetBucketInfo` with the creation
      time of the `Put`, and making it a second time reports that it exists
      without a second `Put`. */
  lemma MakeThenGet(st: State, b: Backend, bucket: string, location: string, now: Time, later: Time)
    requires bucket !in st.buckets
    requires BucketGet !in b.faults && BucketPut !in b.faults
    ensures var r := MakeBucketWithLocation(st, b, bucket, location, now);
      && r.result.Success?
      && GetBucketInfo(r.store, b, bucket) == Success(BucketInfo(bucket, now))
      && var again := MakeBucketWithLocation(r.store, b, bucket, location, later);
         again.result == Failure(BucketAlreadyExists(bucket)) && again.store == r.store
         && BucketPut !in again.calls
  {
  }

  /** Deleting an existing bucket whose emptiness probe answers truthfully:
      a bucket with objects is refused as not empty and stays; an empty one
      is removed, after which it is not found. */
  lemma DeleteLifecycle(st: State, b: Backend, bucket: string)
    requires bucket in st.buckets
    requires BucketGet !in b.faults && GetObjectStore !in b.faults
    requires ObjectList !in b.faults && BucketDelete !in b.faults
    requires |ProbeItems(st, b, bucket)| > 0 <==> |TableOf(st, bucket)| > 0
    ensures var r := DeleteBucket(st, b, bucket);
      |TableOf(st, bucket)| > 0 ==>
        r.result == Failure(BucketNotEmpty(bucket)) && GetBucketInfo(r.store, b, bucket).Success?
    ensures var r := DeleteBucket(st, b, bucket);
      |TableOf(st, bucket)| == 0 ==>
        && r.result.Success?
        && GetBucketInfo(r.store, b, bucket) == Failure(BucketNotFound(bucket))
        && DeleteBucket(r.store, b, bucket).result == Failure(BucketNotFound(bucket))
  {
  }

  /** No two listed buckets share a name, and none has the empty name
      (which the paging loop uses for "from the start"). */
  ghost predicate DistinctNames(listing: seq<BucketListItem>)
  {
    && (forall i, j :: 0 <= i < j < |listing| ==> listing[i].bucket != listing[j].bucket)
    && (forall i :: 0 <= i < |listing| ==> listing[i].bucket != "")
  }

  /** `listing` is the bucket store's own enumeration of `st`: every bucket
      once, with its metadata, none named with the empty string. */
  ghost predicate Enumerates(listing: seq<BucketListItem>, st: State)
  {
    && DistinctNames(listing)
    && (forall i :: 0 <= i < |listing| ==>
          listing[i].bucket in st.buckets
          && st.buckets[listing[i].bucket] == listing[i].meta)
    && (forall n :: n in st.buckets ==> exists i :: 0 <= i < |listing| && listing[i].bucket == n)
  }

  /** The buckets listed after the one named `name`. */
  function After(listing: seq<BucketListItem>, name: string): seq<BucketListItem>
    decreases |listing|
  {
    if |listing| == 0 then []
    else if listing[0].bucket == name then listing[1..]
    else After(listing[1..], name)
  }

  /** Bucket store `List(startAfter, "", 0)`: the next page of buckets after
      `startAfter` ("" = from the start), and whether more remain. */
  function BucketPage(listing: seq<BucketListItem>, startAfter: string, size: nat)
    : (seq<BucketListItem>, bool)
  {
    var rest := if startAfter == "" then listing else After(listing, startAfter);
    var n := if |rest| < size then |rest| else size;
    (rest[..n], |rest| > size)
  }

  lemma {:induction false} AfterIndex(listing: seq<BucketListItem>, k: nat)
    requires DistinctNames(listing)
    requires k < |listing|
    ensures After(listing, listing[k].bucket) == listing[k + 1..]
    decreases k
  {
    if k > 0 {
      assert listing[0].bucket != listing[k].bucket;
      var tail := listing[1..];
      assert DistinctNames(tail) by {
        forall i, j | 0 <= i < j < |tail| ensures tail[i].bucket != tail[j].bucket {
          assert tail[i] == listing[i + 1] && tail[j] == listing[j + 1];
        }
        forall i | 0 <= i < |tail| ensures tail[i].bucket != "" {
          assert tail[i] == listing[i + 1];
        }
      }
      assert tail[k - 1] == listing[k];
      AfterIndex(tail, k - 1);
      assert tail[k..] == listing[k + 1..];
    }
  }

  /** One page of the loop below: resuming after the first `k` buckets
      yields the next ones in order; a page with more to come is full. */
  lemma PageStep(listing: seq<BucketListItem>, k: nat, size: nat)
    requires DistinctNames(listing)
    requires k <= |listing| && size > 0
    ensures var page := BucketPage(listing, if k == 0 then "" else listing[k - 1].bucket, size);
      && k + |page.0| <= |listing|
      && listing[..k] + page.0 == listing[..k + |page.0|]
      && (page.1 <==> |listing| - k > size)
      && (page.1 ==> |page.0| == size)
      && (!page.1 ==> k + |page.0| == |listing|)
  {
    var startAfter := if k == 0 then "" else listing[k - 1].bucket;
    var rest := listing[k..];
    if k > 0 {
      AfterIndex(listing, k - 1);
      assert After(listing, startAfter) == rest;
    }
    assert (if startAfter == "" then listing else After(listing, startAfter)) == rest;
    var n := if |rest| < size then |rest| else size;
    assert BucketPage(listing, startAfter, size) == (rest[..n], |rest| > size);
    assert listing[..k] + rest[..n] == listing[..k + n];
  }

  /** The index of the last page the loop below requests for a listing of
      `n` buckets: a page says "more" exactly when more than `size` remain. */
  function LastPage(n: nat, size: nat): nat
    requires size > 0
  {
    if n <= size then 0 else 1 + LastPage(n - size, size)
  }

  /** The paging loop of `ListBuckets`: the bucket store's whole listing,
      in order, unless one of the page requests fails. */
  method AllPages(b: Backend, listing: seq<BucketListItem>)
    returns (r: Result<seq<BucketListItem>, GatewayError>)
    requires b.bucketPageSize > 0
    requires DistinctNames(listing)
    ensures r.Success? ==> r.value == listing
    ensures r.Success? <==>
      forall k: nat :: k <= LastPage(|listing|, b.bucketPageSize) ==> BucketList(k) !in b.faults
    ensures r.Failure? ==>
      exists k: nat ::
        && k <= LastPage(|listing|, b.bucketPageSize)
        && BucketList(k) in b.faults && r.error == Passthrough(b.faults[BucketList(k)])
        && (forall j: nat :: j < k ==> BucketList(j) !in b.faults)
  {
    var startAfter := "";
    var items: seq<BucketListItem> := [];
    var page: nat := 0;
    while true
      invariant |items| <= |listing| && items == listing[..|items|]
      invariant startAfter == if |items| == 0 then "" else listing[|items| - 1].bucket
      invariant forall j: nat :: j < page ==> BucketList(j) !in b.faults
      invariant page + LastPage(|listing| - |items|, b.bucketPageSize) == LastPage(|listing|, b.bucketPageSize)
      decreases |listing| - |items|
    {
      PageStep(listing, |items|, b.bucketPageSize);
      var reply := Invoke(b, BucketList(page), Success(BucketPage(listing, startAfter, b.bucketPageSize)));
      if reply.Failure? {
        return Failure(Passthrough(reply.error));
      }
      var moreItems: seq<BucketListItem>, more: bool := reply.value.0, reply.value.1;
      ghost var remaining := |listing| - |items|;
      items := items + moreItems;
      if !more {
        assert remaining <= b.bucketPageSize && page == LastPage(|listing|, b.bucketPageSize);
        break;
      }
      assert LastPage(remaining, b.bucketPageSize) == 1 + LastPage(|listing| - |items|, b.bucketPageSize);
      startAfter := moreItems[|moreItems| - 1].bucket;
      page := page + 1;
    }
    assert items == listing;
    return Success(items);
  }

  /** `ListBuckets`: ask for pages until the bucket store says there are no
      more, resuming after the last bucket of each page, and report every
      bucket once with its creation time. */
  method ListBuckets(st: State, b: Backend, listing: seq<BucketListItem>)
    returns (r: Result<seq<BucketInfo>, GatewayError>)
    requires b.bucketPageSize > 0
    requires Enumerates(listing, st)
    ensures r.Success? ==>
      && |r.value| == |listing|
      && (forall i :: 0 <= i < |r.value| ==>
            r.value[i] == BucketInfo(listing[i].bucket, listing[i].meta.created))
    ensures r.Success? ==>
      forall n :: n in st.buckets ==>
        exists i :: 0 <= i < |r.value| && r.value[i] == BucketInfo(n, st.buckets[n].created)
    ensures r.Success? ==>
      forall i :: 0 <= i < |r.value| ==>
        r.value[i].name in st.buckets && st.buckets[r.value[i].name].created == r.value[i].created
    ensures r.Success? <==>
      forall k: nat :: k <= LastPage(|listing|, b.bucketPageSize) ==> BucketList(k) !in b.faults
    ensures r.Failure? ==>
      exists k: nat ::
        && k <= LastPage(|listing|, b.bucketPageSize)
        && BucketList(k) in b.faults && r.error == Passthrough(b.faults[BucketList(k)])
        && (forall j: nat :: j < k ==> BucketList(j) !in b.faults)
  {
    var pages := AllPages(b, listing);
    if pages.Failure? {
      return Failure(pages.error);
    }
    var items := pages.value;
    var infos := seq(|items|, i requires 0 <= i < |items| => BucketInfo(items[i].bucket, items[i].meta.created));
    forall n | n in st.buckets
      ensures exists i :: 0 <= i < |infos| && infos[i] == BucketInfo(n, st.buckets[n].created)
    {
      var i :| 0 <= i < |listing| && listing[i].bucket == n;
      assert infos[i] == BucketInfo(n, st.buckets[n].created);
    }
    return Success(infos);
  }
}

=== FILE: Errors.dfy ===
/** The error taxonomy: what the backing stores report, what the gateway
    hands to its host, and the translation between the two. */
module Errors {

  /** Errors of the bucket and object stores. Only "key not found" is a
      category the gateway matches on; everything else is opaque. */
  datatype StoreError = KeyNotFound | Failed(reason: string)

  /** Errors the gateway returns to its host. */
  datatype GatewayError =
    | BucketNotFound(bucket: string)
    | BucketNotEmpty(bucket: string)
    | BucketAlreadyExists(bucket: string)
    | ObjectNotFound(bucket: string, key: string)
    | UnsupportedDelimiter(delimiter: string)
    | Passthrough(cause: StoreError)

  /** Translation used where a missing key means a missing bucket. */
  function BucketError(e: StoreError, bucket: string): (g: GatewayError)
    ensures g == BucketNotFound(bucket) <==> e == KeyNotFound
    ensures e != KeyNotFound ==> g == Passthrough(e)
  {
    if e == KeyNotFound then BucketNotFound(bucket) else Passthrough(e)
  }

  /** Translation used where a missing key means a missing object. */
  function ObjectError(e: StoreError, bucket: string, key: string): (g: GatewayError)
    ensures g == ObjectNotFound(bucket, key) <==> e == KeyNotFound
    ensures e != KeyNotFound ==> g == Passthrough(e)
  {
    if e == KeyNotFound then ObjectNotFound(bucket, key) else Passthrough(e)
  }
}

=== FILE: Host.dfy ===
/** The records the gateway returns to its S3 host. */
module Host {
  import opened Store

  datatype BucketInfo = BucketInfo(name: string, created: Time)

  datatype ObjectInfo = ObjectInfo(
    bucket: string,
    name: string,
    modTime: Time,
    size: int,
    isDir: bool,
    etag: string,
    contentType: string,
    userDefined: map<string, string>)

  datatype ListObjectsInfo = ListObjectsInfo(
    isTruncated: bool,
    nextMarker: string,
    objects: seq<ObjectInfo>,
    prefixes: seq<string>)

  datatype ListObjectsV2Info = ListObjectsV2Info(
    isTruncated: bool,
    continuationToken: string,
    nextContinuationToken: string,
    objects: seq<ObjectInfo>,
    prefixes: seq<string>)

  /** The object record built from stored metadata: never a directory, the
      checksum surfaced as the ETag, everything else copied. */
  function Info(bucket: string, name: string, m: ObjectMeta): ObjectInfo
  {
    ObjectInfo(bucket, name, m.modified, m.size, false, m.checksum, m.contentType, m.userDefined)
  }

  /** The V2 record that is all zero except for the echoed token. */
  function EmptyListingV2(token: string): ListObjectsV2Info
  {
    ListObjectsV2Info(false, token, "", [], [])
  }
}

=== FILE: Listing.dfy ===
/** `ListObjects` (V1, marker based) and `ListObjectsV2` (continuation
    token based): the translation of one object-store page into the host's
    listing records. */
module Listing {
  import opened Wrappers
  import opened Paths
  import opened Errors
  import opened Store
  import opened Host

  /** Only "no delimiter" (recursive) and "/" (one level) are served. */
  predicate SupportedDelimiter(delimiter: string)
  {
    delimiter == "" || delimiter == [Separator]
  }

  /** The name under which a store item is reported: in recursive mode the
      store answers relative to the prefix, so the prefix is put back. */
  function ItemName(item: ListItem, prefix: string, recursive: bool): string
  {
    ToString(if recursive then Prepend(item.path, prefix) else item.path)
  }

  lemma ItemNameShape(item: ListItem, prefix: string, recursive: bool)
    ensures !recursive || prefix == "" ==> ItemName(item, prefix, recursive) == ToString(item.path)
    ensures recursive && prefix != "" && |item.path| > 0 ==>
      ItemName(item, prefix, recursive) == prefix + [Separator] + ToString(item.path)
    ensures recursive && prefix != "" && |item.path| == 0 ==> ItemName(item, prefix, recursive) == prefix
  {
    PrependString(item.path, prefix);
  }

  /** What an object item contributes to the objects of a listing. */
  function ObjectEntry(bucket: string, prefix: string, recursive: bool, item: ListItem): seq<ObjectInfo>
  {
    if item.isPrefix then [] else [Info(bucket, ItemName(item, prefix, recursive), item.meta)]
  }

  /** What a prefix item contributes to the prefixes of a listing. */
  function PrefixEntry(prefix: string, recursive: bool, item: ListItem): seq<string>
  {
    if item.isPrefix then [ItemName(item, prefix, recursive) + [Separator]] else []
  }

  /** Reference definition: the objects of a page, item by item from the front. */
  function ObjectEntries(bucket: string, prefix: string, recursive: bool, items: seq<ListItem>): seq<ObjectInfo>
    decreases |items|
  {
    if |items| == 0 then []
    else ObjectEntry(bucket, prefix, recursive, items[0]) + ObjectEntries(bucket, prefix, recursive, items[1..])
  }

  /** Reference definition: the prefixes of a page, item by item from the front. */
  function PrefixEntries(prefix: string, recursive: bool, items: seq<ListItem>): seq<string>
    decreases |items|
  {
    if |items| == 0 then []
    else PrefixEntry(prefix, recursive, items[0]) + PrefixEntries(prefix, recursive, items[1..])
  }

  /** The loop of both listing calls: each item in turn is appended either
      to the objects or to the prefixes. */
  function Partition(bucket: string, prefix: string, recursive: bool, items: seq<ListItem>)
    : (r: (seq<ObjectInfo>, seq<string>))
    ensures |r.0| + |r.1| == |items|
    ensures forall i :: 0 <= i < |r.0| ==> !r.0[i].isDir && r.0[i].bucket == bucket
    ensures forall j :: 0 <= j < |r.1| ==> |r.1[j]| > 0 && r.1[j][|r.1[j]| - 1] == Separator
    decreases |items|
  {
    if |items| == 0 then ([], [])
    else
      var (objects, prefixes) := Partition(bucket, prefix, recursive, items[..|items| - 1]);
      var item := items[|items| - 1];
      var name := ItemName(item, prefix, recursive);
      if item.isPrefix then (objects, prefixes + [name + [Separator]])
      else (objects + [Info(bucket, name, item.meta)], prefixes)
  }

  lemma {:induction false} ObjectEntriesAppend(bucket: string, prefix: string, recursive: bool, items: seq<ListItem>, x: ListItem)
    ensures ObjectEntries(bucket, prefix, recursive, items + [x])
         == ObjectEntries(bucket, prefix, recursive, items) + ObjectEntry(bucket, prefix, recursive, x)
    decreases |items|
  {
    if |items| > 0 {
      assert (items + [x])[1..] == items[1..] + [x];
      ObjectEntriesAppend(bucket, prefix, recursive, items[1..], x);
    } else {
      assert ObjectEntries(bucket, prefix, recursive, [x]) == ObjectEntry(bucket, prefix, recursive, x) + [];
    }
  }

  lemma {:induction false} PrefixEntriesAppend(prefix: string, recursive: bool, items: seq<ListItem>, x: ListItem)
    ensures PrefixEntries(prefix, recursive, items + [x])
         == PrefixEntries(prefix, recursive, items) + PrefixEntry(prefix, recursive, x)
    decreases |items|
  {
    if |items| > 0 {
      assert (items + [x])[1..] == items[1..] + [x];
      PrefixEntriesAppend(prefix, recursive, items[1..], x);
    } else {
      assert PrefixEntries(prefix, recursive, [x]) == PrefixEntry(prefix, recursive, x) + [];
    }
  }

  /** Every item of a page lands in exactly one of the two outputs, in store
      order: the objects are the object items and the prefixes the prefix
      items, each translated. */
  lemma {:induction false} PartitionIsFilter(bucket: string, prefix: string, recursive: bool, items: seq<ListItem>)
    ensures Partition(bucket, prefix, recursive, items)
         == (ObjectEntries(bucket, prefix, recursive, items), PrefixEntries(prefix, recursive, items))
    decreases |items|
  {
    if |items| > 0 {
      var init := items[..|items| - 1];
      var x := items[|items| - 1];
      assert items == init + [x];
      PartitionIsFilter(bucket, prefix, recursive, init);
      ObjectEntriesAppend(bucket, prefix, recursive, init, x);
      PrefixEntriesAppend(prefix, recursive, init, x);
      var before := Partition(bucket, prefix, recursive, init);
      var after := Partition(bucket, prefix, recursive, items);
      assert after.0 == before.0 + ObjectEntry(bucket, prefix, recursive, x);
      assert after.1 == before.1 + PrefixEntry(prefix, recursive, x);
    }
  }

  function Last(items: seq<ListItem>): ListItem
    requires |items| > 0
  {
    items[|items| - 1]
  }

  /** V1 `NextMarker`: set only on a truncated page, to the (store-relative)
      path of the last item, or back to the incoming marker when the
      truncated page came back empty. */
  function NextMarker(marker: string, page: Page): (m: string)
    ensures !page.more ==> m == ""
    ensures page.more && |page.items| > 0 ==> m == ToString(Last(page.items).path)
    ensures page.more && |page.items| == 0 ==> m == marker
  {
    StringOfNew(marker);
    if !page.more then ""
    else ToString(if |page.items| > 0 then Last(page.items).path else New(marker))
  }

  /** V2 `NextContinuationToken`: set only on a non-empty truncated page, to
      the last item's path followed by the sentinel. */
  function NextToken(page: Page): (t: string)
    ensures t != "" <==> page.more && |page.items| > 0
    ensures t != "" ==> t[..|t| - 1] == ToString(Last(page.items).path) && t[|t| - 1] == Sentinel
  {
    var token := if |page.items| > 0 then ToString(Last(page.items).path) + [Sentinel] else "";
    if page.more then token else ""
  }

  /** The object-store query of a V1 listing. */
  function V1Query(prefix: string, marker: string, delimiter: string, maxKeys: int): (q: ListQuery)
    ensures q.recursive <==> delimiter == ""
    ensures q.startAfter.Some? && ToString(q.startAfter.value) == marker
    ensures ToString(q.prefix) == prefix && q.limit == maxKeys
  {
    StringOfNew(marker);
    StringOfNew(prefix);
    ListQuery(New(prefix), Some(New(marker)), delimiter == "", maxKeys)
  }

  /** The V2 start path: a non-empty token wins over `startAfter`, which is
      used only without a token; with neither the listing starts from nil. */
  function V2Start(token: string, startAfter: string): (start: Option<Path>)
    ensures start.Some? <==> token != "" || startAfter != ""
    ensures start.Some? ==> ToString(start.value) == if token != "" then token else startAfter
    ensures token != "" ==> start == Some(New(token))
  {
    StringOfNew(token);
    StringOfNew(startAfter);
    var fromToken := if token != "" then Some(New(token)) else None;
    if fromToken.None? && startAfter != "" then Some(New(startAfter)) else fromToken
  }

  /** The object-store query of a V2 listing. */
  function V2Query(prefix: string, token: string, delimiter: string, maxKeys: int, startAfter: string): (q: ListQuery)
    ensures q.recursive <==> delimiter == ""
    ensures q.startAfter == V2Start(token, startAfter)
    ensures ToString(q.prefix) == prefix && q.limit == maxKeys
  {
    StringOfNew(prefix);
    ListQuery(New(prefix), V2Start(token, startAfter), delimiter == "", maxKeys)
  }

  /** The V1 record built from a page. */
  function V1Info(bucket: string, prefix: string, marker: string, recursive: bool, page: Page): (info: ListObjectsInfo)
    ensures info.isTruncated == page.more
    ensures info.nextMarker != "" ==> page.more
    ensures |info.objects| + |info.prefixes| == |page.items|
    ensures info.objects == ObjectEntries(bucket, prefix, recursive, page.items)
    ensures info.prefixes == PrefixEntries(prefix, recursive, page.items)
  {
    PartitionIsFilter(bucket, prefix, recursive, page.items);
    var (objects, prefixes) := Partition(bucket, prefix, recursive, page.items);
    ListObjectsInfo(page.more, NextMarker(marker, page), objects, prefixes)
  }

  /** The V2 record built from a page. */
  function V2Info(bucket: string, prefix: string, token: string, recursive: bool, page: Page): (info: ListObjectsV2Info)
    ensures info.isTruncated == page.more
    ensures info.continuationToken == token
    ensures info.nextContinuationToken != "" ==> page.more
    ensures |info.objects| + |info.prefixes| == |page.items|
    ensures info.objects == ObjectEntries(bucket, prefix, recursive, page.items)
    ensures info.prefixes == PrefixEntries(prefix, recursive, page.items)
  {
    PartitionIsFilter(bucket, prefix, recursive, page.items);
    var (objects, prefixes) := Partition(bucket, prefix, recursive, page.items);
    ListObjectsV2Info(page.more, token, NextToken(page), objects, prefixes)
  }

  /** `ListObjects`. */
  function ListObjects(st: State, b: Backend, bucket: string, prefix: string, marker: string,
                       delimiter: string, maxKeys: int): (r: Result<ListObjectsInfo, GatewayError>)
    ensures !SupportedDelimiter(delimiter) ==> r == Failure(UnsupportedDelimiter(delimiter))
    ensures SupportedDelimiter(delimiter) && GetObjectStore in b.faults ==>
      r == Failure(Passthrough(b.faults[GetObjectStore]))
    ensures SupportedDelimiter(delimiter) && GetObjectStore !in b.faults && ObjectList in b.faults ==>
      r == Failure(Passthrough(b.faults[ObjectList]))
    ensures r.Success? <==> SupportedDelimiter(delimiter) && GetObjectStore !in b.faults && ObjectList !in b.faults
    ensures r.Success? ==>
      var page := b.lister(TableOf(st, bucket), V1Query(prefix, marker, delimiter, maxKeys));
      r.value == V1Info(bucket, prefix, marker, delimiter == "", page)
  {
    if !SupportedDelimiter(delimiter) then Failure(UnsupportedDelimiter(delimiter))
    else
      var recursive := delimiter == "";
      match OpenObjects(st, b, bucket)
      case Failure(e) => Failure(Passthrough(e))
      case Success(t) =>
        match ListPage(b, t, V1Query(prefix, marker, delimiter, maxKeys))
        case Failure(e) => Failure(Passthrough(e))
        case Success(page) => Success(V1Info(bucket, prefix, marker, recursive, page))
  }

  /** `ListObjectsV2` returns a record alongside its error, as the source does. */
  datatype V2Reply = V2Reply(info: ListObjectsV2Info, err: Option<GatewayError>)

  /** `ListObjectsV2`; `fetchOwner` is ignored by the source and left out. */
  function ListObjectsV2(st: State, b: Backend, bucket: string, prefix: string, token: string,
                         delimiter: string, maxKeys: int, startAfter: string): (r: V2Reply)
    ensures !SupportedDelimiter(delimiter) ==>
      r == V2Reply(EmptyListingV2(token), Some(UnsupportedDelimiter(delimiter)))
    ensures SupportedDelimiter(delimiter) && GetObjectStore in b.faults ==>
      r == V2Reply(EmptyListingV2(token), Some(Passthrough(b.faults[GetObjectStore])))
    ensures SupportedDelimiter(delimiter) && GetObjectStore !in b.faults && ObjectList in b.faults ==>
      r == V2Reply(EmptyListingV2(""), Some(Passthrough(b.faults[ObjectList])))
    ensures r.err.None? <==> SupportedDelimiter(delimiter) && GetObjectStore !in b.faults && ObjectList !in b.faults
    ensures r.err.None? ==>
      var page := b.lister(TableOf(st, bucket), V2Query(prefix, token, delimiter, maxKeys, startAfter));
      r.info == V2Info(bucket, prefix, token, delimiter == "", page)
  {
    if !SupportedDelimiter(delimiter) then
      V2Reply(EmptyListingV2(token), Some(UnsupportedDelimiter(delimiter)))
    else
      var recursive := delimiter == "";
      match OpenObjects(st, b, bucket)
      case Failure(e) => V2Reply(EmptyListingV2(token), Some(Passthrough(e)))
      case Success(t) =>
        match ListPage(b, t, V2Query(prefix, token, delimiter, maxKeys, startAfter))
        // the source returns its still-zero named result here: no token echo
        case Failure(e) => V2Reply(EmptyListingV2(""), Some(Passthrough(e)))
        case Success(page) => V2Reply(V2Info(bucket, prefix, token, recursive, page), None)
  }

  /** An unsupported delimiter is rejected before any store call: the
      answer is the same whatever the stores hold and however they behave. */
  lemma DelimiterCheckedFirst(st1: State, b1: Backend, st2: State, b2: Backend, bucket: string,
                              prefix: string, marker: string, token: string, delimiter: string,
                              maxKeys: int, startAfter: string)
    requires !SupportedDelimiter(delimiter)
    ensures ListObjects(st1, b1, bucket, prefix, marker, delimiter, maxKeys)
         == ListObjects(st2, b2, bucket, prefix, marker, delimiter, maxKeys)
    ensures ListObjectsV2(st1, b1, bucket, prefix, token, delimiter, maxKeys, startAfter)
         == ListObjectsV2(st2, b2, bucket, prefix, token, delimiter, maxKeys, startAfter)
    ensures ListObjectsV2(st1, b1, bucket, prefix, token, delimiter, maxKeys, startAfter).info.continuationToken == token
  {
  }

  /** In recursive mode under a non-empty prefix, the V1 marker of a
      truncated page is the store-relative path of the last item, not the
      name under which that item was reported. */
  lemma RecursiveMarkerIsRelative(st: State, b: Backend, bucket: string, prefix: string,
                                  marker: string, maxKeys: int)
    requires prefix != ""
    requires GetObjectStore !in b.faults && ObjectList !in b.faults
    requires var page := b.lister(TableOf(st, bucket), V1Query(prefix, marker, "", maxKeys));
      page.more && |page.items| > 0 && !Last(page.items).isPrefix
    ensures var r := ListObjects(st, b, bucket, prefix, marker, "", maxKeys);
      && r.Success?
      && |r.value.objects| > 0
      && r.value.nextMarker != r.value.objects[|r.value.objects| - 1].name
  {
    var page := b.lister(TableOf(st, bucket), V1Query(prefix, marker, "", maxKeys));
    var items := page.items;
    var x := Last(items);
    var init := items[..|items| - 1];
    assert items == init + [x];
    ObjectEntriesAppend(bucket, prefix, true, init, x);
    var objects := ObjectEntries(bucket, prefix, true, items);
    assert objects[|objects| - 1].name == ItemName(x, prefix, true);
    ItemNameShape(x, prefix, true);
  }

  /** With `more` set but no items, V1 hands the incoming marker back and V2
      hands back no token at all. */
  lemma EmptyTruncatedPage(st: State, b: Backend, bucket: string, prefix: string, marker: string,
                           token: string, delimiter: string, maxKeys: int, startAfter: string)
    requires SupportedDelimiter(delimiter)
    requires GetObjectStore !in b.faults && ObjectList !in b.faults
    requires b.lister(TableOf(st, bucket), V1Query(prefix, marker, delimiter, maxKeys)) == Page([], true)
    requires b.lister(TableOf(st, bucket), V2Query(prefix, token, delimiter, maxKeys, startAfter)) == Page([], true)
    ensures ListObjects(st, b, bucket, prefix, marker, delimiter, maxKeys)
         == Success(ListObjectsInfo(true, marker, [], []))
    ensures ListObjectsV2(st, b, bucket, prefix, token, delimiter, maxKeys, startAfter)
         == V2Reply(ListObjectsV2Info(true, token, "", [], []), None)
  {
    assert ObjectEntries(bucket, prefix, delimiter == "", []) == [];
    assert PrefixEntries(prefix, delimiter == "", []) == [];
  }

  /** Feeding a V2 token back resumes from the last item's path with the
      sentinel still on its last segment, whatever `startAfter` says. */
  lemma TokenFeedsBack(page: Page, prefix: string, delimiter: string, maxKeys: int, startAfter: string)
    requires page.more && |page.items| > 0
    requires Canonical(Last(page.items).path)
    ensures V2Query(prefix, NextToken(page), delimiter, maxKeys, startAfter).startAfter
         == Some(WithSentinel(Last(page.items).path))
  {
    TokenDecodes(Last(page.items).path);
  }
}

=== FILE: Objects.dfy ===
/** Single-object operations: `DeleteObject`, `GetObjectInfo`, `GetObject`
    (the range it asks for), `PutObject` and `CopyObject` (the metadata they
    store). Bytes are not modelled: an upload is its size and the checksum
    the object store computes over it. */
module Objects {
  import opened Wrappers
  import opened Paths
  import opened Errors
  import opened Store
  import opened Host
  import Buckets

  /** The reserved user-defined key that carries the content type. */
  const ContentTypeKey: string := "content-type"

  /** The metadata record handed to the object store's `Put`. */
  datatype SerializableMeta = SerializableMeta(contentType: string, userDefined: map<string, string>)

  /** The bytes of an upload, as far as the gateway can see them. */
  datatype Payload = Payload(size: int, checksum: string)

  /** The byte range `GetObject` copies to the caller's writer. */
  datatype ByteRange = ByteRange(offset: int, length: int)

  /** The metadata `PutObject` stores: the content type is taken out of the
      user-defined map ("" when absent) and the key is removed from it. */
  function SerializeMeta(metadata: map<string, string>): (sm: SerializableMeta)
    ensures sm.contentType == if ContentTypeKey in metadata then metadata[ContentTypeKey] else ""
    ensures ContentTypeKey !in sm.userDefined
    ensures forall k :: k in metadata && k != ContentTypeKey ==>
      k in sm.userDefined && sm.userDefined[k] == metadata[k]
    ensures forall k :: k in sm.userDefined ==> k in metadata
  {
    var contentType := if ContentTypeKey in metadata then metadata[ContentTypeKey] else "";
    SerializableMeta(contentType, metadata - {ContentTypeKey})
  }

  /** The metadata the object store keeps for an upload. */
  function StoredMeta(sm: SerializableMeta, data: Payload, now: Time): ObjectMeta
  {
    ObjectMeta(now, data.size, data.checksum, sm.contentType, sm.userDefined)
  }

  /** `putObject`: store the upload under the key's path and report the
      stored metadata. The zero expiration time it passes is not modelled. */
  function PutWithMeta(st: State, b: Backend, bucket: string, key: string, data: Payload,
                       sm: SerializableMeta, now: Time): (r: Outcome<ObjectInfo>)
    ensures r.result.Success? <==> GetObjectStore !in b.faults && ObjectPut !in b.faults
    ensures r.result.Success? ==>
      && r.result.value == Info(bucket, key, StoredMeta(sm, data, now))
      && r.store == WithTable(st, bucket, TableOf(st, bucket)[New(key) := StoredMeta(sm, data, now)])
    ensures GetObjectStore in b.faults ==> r.result == Failure(Passthrough(b.faults[GetObjectStore]))
    ensures GetObjectStore !in b.faults && ObjectPut in b.faults ==>
      r.result == Failure(Passthrough(b.faults[ObjectPut]))
    ensures r.result.Failure? ==> r.store == st
  {
    match OpenObjects(st, b, bucket)
    case Failure(e) => Outcome(Failure(Passthrough(e)), st, [GetObjectStore])
    case Success(t) =>
      if ObjectPut in b.faults then
        Outcome(Failure(Passthrough(b.faults[ObjectPut])), st, [GetObjectStore, ObjectPut])
      else
        var m := StoredMeta(sm, data, now);
        Outcome(Success(Info(bucket, key, m)), WithTable(st, bucket, t[New(key) := m]),
                [GetObjectStore, ObjectPut])
  }

  /** `PutObject`. */
  function PutObject(st: State, b: Backend, bucket: string, key: string, data: Payload,
                     metadata: map<string, string>, now: Time): (r: Outcome<ObjectInfo>)
    ensures r.result.Success? <==> GetObjectStore !in b.faults && ObjectPut !in b.faults
    ensures r.result.Success? ==>
      var info := r.result.value;
      && info.bucket == bucket && info.name == key && !info.isDir
      && info.size == data.size && info.etag == data.checksum && info.modTime == now
      && info.contentType == (if ContentTypeKey in metadata then metadata[ContentTypeKey] else "")
      && info.userDefined == metadata - {ContentTypeKey}
    ensures r.result.Success? ==>
      r.store == WithTable(st, bucket, TableOf(st, bucket)[New(key) := StoredMeta(SerializeMeta(metadata), data, now)])
    ensures r.result.Failure? ==> r.store == st
  {
    PutWithMeta(st, b, bucket, key, data, SerializeMeta(metadata), now)
  }

  /** `getObject`: the stored metadata, whose size the ranger reports.
      A missing object is passed on as the store's not-found error. */
  function OpenObject(st: State, b: Backend, bucket: string, key: string): (r: Result<ObjectMeta, StoreError>)
    ensures r.Success? <==>
      GetObjectStore !in b.faults && ObjectGet !in b.faults && New(key) in TableOf(st, bucket)
    ensures r.Success? ==> r.value == TableOf(st, bucket)[New(key)]
    ensures GetObjectStore in b.faults ==> r == Failure(b.faults[GetObjectStore])
    ensures GetObjectStore !in b.faults && ObjectGet in b.faults ==> r == Failure(b.faults[ObjectGet])
    ensures GetObjectStore !in b.faults && ObjectGet !in b.faults && New(key) !in TableOf(st, bucket) ==>
      r == Failure(KeyNotFound)
  {
    match OpenObjects(st, b, bucket)
    case Failure(e) => Failure(e)
    case Success(t) => Lookup(b, ObjectGet, t, New(key))
  }

  /** The length `GetObject` asks the ranger for: -1 means "to the end". */
  function RangeLength(size: int, offset: int, length: int): (n: int)
    ensures length != -1 ==> n == length
    ensures length == -1 ==> offset + n == size
  {
    if length == -1 then size - offset else length
  }

  /** `GetObject`: the range copied to the writer. Errors are passed on
      untranslated, including "not found". */
  function GetObject(st: State, b: Backend, bucket: string, key: string, offset: int, length: int)
    : (r: Result<ByteRange, GatewayError>)
    ensures r.Success? <==>
      GetObjectStore !in b.faults && ObjectGet !in b.faults && RangeRead !in b.faults
      && New(key) in TableOf(st, bucket)
    ensures r.Success? ==>
      var size := TableOf(st, bucket)[New(key)].size;
      && r.value.offset == offset
      && (length == -1 ==> r.value.offset + r.value.length == size)
      && (length != -1 ==> r.value.length == length)
    ensures GetObjectStore !in b.faults && ObjectGet !in b.faults && New(key) !in TableOf(st, bucket) ==>
      r == Failure(Passthrough(KeyNotFound))
  {
    match OpenObject(st, b, bucket, key)
    case Failure(e) => Failure(Passthrough(e))
    case Success(m) =>
      var n := RangeLength(m.size, offset, length);
      if RangeRead in b.faults then Failure(Passthrough(b.faults[RangeRead]))
      else Success(ByteRange(offset, n))
  }

  /** `GetObjectInfo`. */
  function GetObjectInfo(st: State, b: Backend, bucket: string, key: string)
    : (r: Result<ObjectInfo, GatewayError>)
    ensures r.Success? <==>
      GetObjectStore !in b.faults && ObjectMetaRead !in b.faults && New(key) in TableOf(st, bucket)
    ensures r.Success? ==> r.value == Info(bucket, key, TableOf(st, bucket)[New(key)])
    ensures GetObjectStore in b.faults ==> r == Failure(Passthrough(b.faults[GetObjectStore]))
    ensures GetObjectStore !in b.faults && ObjectMetaRead in b.faults ==>
      r == Failure(ObjectError(b.faults[ObjectMetaRead], bucket, key))
    ensures GetObjectStore !in b.faults && ObjectMetaRead !in b.faults && New(key) !in TableOf(st, bucket) ==>
      r == Failure(ObjectNotFound(bucket, key))
  {
    match OpenObjects(st, b, bucket)
    case Failure(e) => Failure(Passthrough(e))
    case Success(t) =>
      match Lookup(b, ObjectMetaRead, t, New(key))
      case Failure(e) => Failure(ObjectError(e, bucket, key))
      case Success(m) => Success(Info(bucket, key, m))
  }

  /** `DeleteObject`. */
  function DeleteObject(st: State, b: Backend, bucket: string, key: string): (r: Outcome<()>)
    ensures r.result.Success? <==>
      GetObjectStore !in b.faults && ObjectDelete !in b.faults && New(key) in TableOf(st, bucket)
    ensures r.result.Success? ==> r.store == WithTable(st, bucket, TableOf(st, bucket) - {New(key)})
    ensures GetObjectStore in b.faults ==> r.result == Failure(Passthrough(b.faults[GetObjectStore]))
    ensures GetObjectStore !in b.faults && ObjectDelete in b.faults ==>
      r.result == Failure(ObjectError(b.faults[ObjectDelete], bucket, key))
    ensures GetObjectStore !in b.faults && ObjectDelete !in b.faults && New(key) !in TableOf(st, bucket) ==>
      r.result == Failure(ObjectNotFound(bucket, key))
    ensures r.result.Failure? ==> r.store == st
  {
    match OpenObjects(st, b, bucket)
    case Failure(e) => Outcome(Failure(Passthrough(e)), st, [GetObjectStore])
    case Success(t) =>
      var path := New(key);
      var deleted := Invoke(b, ObjectDelete, if path in t then Success(t - {path}) else Failure(KeyNotFound));
      match deleted
      case Failure(e) => Outcome(Failure(ObjectError(e, bucket, key)), st, [GetObjectStore, ObjectDelete])
      case Success(t') => Outcome(Success(()), WithTable(st, bucket, t'), [GetObjectStore, ObjectDelete])
  }

  /** `CopyObject`: read the whole source, then put it at the destination
      with the content type and user-defined map of `srcInfo`, as given. */
  function CopyObject(st: State, b: Backend, srcBucket: string, srcKey: string, destBucket: string,
                      destKey: string, srcInfo: ObjectInfo, checksum: string, now: Time)
    : (r: Outcome<ObjectInfo>)
    ensures r.result.Success? <==>
      && GetObjectStore !in b.faults && ObjectGet !in b.faults && RangeRead !in b.faults
      && ObjectPut !in b.faults && New(srcKey) in TableOf(st, srcBucket)
    ensures r.result.Success? ==>
      var info := r.result.value;
      && info.bucket == destBucket && info.name == destKey
      && info.size == TableOf(st, srcBucket)[New(srcKey)].size
      && info.contentType == srcInfo.contentType && info.userDefined == srcInfo.userDefined
    ensures r.result.Success? ==>
      var m := ObjectMeta(now, TableOf(st, srcBucket)[New(srcKey)].size, checksum,
                          srcInfo.contentType, srcInfo.userDefined);
      r.store == WithTable(st, destBucket, TableOf(st, destBucket)[New(destKey) := m])
    ensures r.result.Failure? ==> r.store == st
  {
    match OpenObject(st, b, srcBucket, srcKey)
    case Failure(e) =>
      var tried := if GetObjectStore in b.faults then [GetObjectStore] else [GetObjectStore, ObjectGet];
      Outcome(Failure(Passthrough(e)), st, tried)
    case Success(m) =>
      if RangeRead in b.faults then
        Outcome(Failure(Passthrough(b.faults[RangeRead])), st, [GetObjectStore, ObjectGet, RangeRead])
      else
        var sm := SerializableMeta(srcInfo.contentType, srcInfo.userDefined);
        var put := PutWithMeta(st, b, destBucket, destKey, Payload(m.size, checksum), sm, now);
        put.(calls := [GetObjectStore, ObjectGet, RangeRead] + put.calls)
  }

  /** A put followed by an info read of the same key returns what was
      supplied: the size, the content type taken from the map, and the rest
      of the map without the reserved key. */
  lemma PutThenInfo(st: State, b: Backend, bucket: string, key: string, data: Payload,
                    metadata: map<string, string>, now: Time)
    requires GetObjectStore !in b.faults && ObjectPut !in b.faults && ObjectMetaRead !in b.faults
    ensures var put := PutObject(st, b, bucket, key, data, metadata, now);
      && put.result.Success?
      && GetObjectInfo(put.store, b, bucket, key) == put.result
      && var info := put.result.value;
         && info.size == data.size
         && info.contentType == (if ContentTypeKey in metadata then metadata[ContentTypeKey] else "")
         && ContentTypeKey !in info.userDefined
         && (forall k :: k in metadata && k != ContentTypeKey ==>
               k in info.userDefined && info.userDefined[k] == metadata[k])
  {
    var put := PutObject(st, b, bucket, key, data, metadata, now);
    assert TableOf(put.store, bucket)[New(key)] == StoredMeta(SerializeMeta(metadata), data, now);
  }

  /** An info read of a copy returns the source's size and the content
      type and user-defined map of the host-supplied source info. Unlike a
      put, a "content-type" entry in that map is kept. */
  lemma CopyThenInfo(st: State, b: Backend, srcBucket: string, srcKey: string, destBucket: string,
                     destKey: string, srcInfo: ObjectInfo, checksum: string, now: Time)
    requires GetObjectStore !in b.faults && ObjectGet !in b.faults && RangeRead !in b.faults
    requires ObjectPut !in b.faults && ObjectMetaRead !in b.faults
    requires New(srcKey) in TableOf(st, srcBucket)
    ensures var copy := CopyObject(st, b, srcBucket, srcKey, destBucket, destKey, srcInfo, checksum, now);
      && copy.result.Success?
      && var info := GetObjectInfo(copy.store, b, destBucket, destKey);
         && info.Success?
         && info.value.size == TableOf(st, srcBucket)[New(srcKey)].size
         && info.value.contentType == srcInfo.contentType
         && info.value.userDefined == srcInfo.userDefined
  {
    var copy := CopyObject(st, b, srcBucket, srcKey, destBucket, destKey, srcInfo, checksum, now);
    assert New(destKey) in TableOf(copy.store, destBucket);
  }

  /** `GetObject` with length -1 on a 100-byte object from offset 40 asks
      for exactly 60 bytes. */
  lemma ReadToEnd(st: State, b: Backend, bucket: string, key: string)
    requires GetObjectStore !in b.faults && ObjectGet !in b.faults && RangeRead !in b.faults
    requires New(key) in TableOf(st, bucket) && TableOf(st, bucket)[New(key)].size == 100
    ensures GetObject(st, b, bucket, key, 40, -1) == Success(ByteRange(40, 60))
  {
  }

  /** Unlike `GetObjectInfo` and `DeleteObject`, `GetObject` reports a
      missing object with the store's raw not-found error. */
  lemma MissingObjectErrors(st: State, b: Backend, bucket: string, key: string, offset: int, length: int)
    requires GetObjectStore !in b.faults && ObjectGet !in b.faults
    requires ObjectMetaRead !in b.faults && ObjectDelete !in b.faults
    requires New(key) !in TableOf(st, bucket)
    ensures GetObject(st, b, bucket, key, offset, length) == Failure(Passthrough(KeyNotFound))
    ensures GetObjectInfo(st, b, bucket, key) == Failure(ObjectNotFound(bucket, key))
    ensures DeleteObject(st, b, bucket, key).result == Failure(ObjectNotFound(bucket, key))
  {
  }

  /** Emptying a bucket lets it be deleted: with one object left, the
      bucket is refused as not empty; after that object is deleted, the
      bucket is removed. */
  lemma DeleteAfterEmptied(st: State, b: Backend, bucket: string, key: string)
    requires bucket in st.buckets
    requires TableOf(st, bucket).Keys == {New(key)}
    requires BucketGet !in b.faults && GetObjectStore !in b.faults && ObjectList !in b.faults
    requires BucketDelete !in b.faults && ObjectDelete !in b.faults
    requires forall t: ObjectTable :: |b.lister(t, EmptinessProbe).items| > 0 <==> |t| > 0
    ensures Buckets.DeleteBucket(st, b, bucket).result == Failure(BucketNotEmpty(bucket))
    ensures var emptied := DeleteObject(st, b, bucket, key);
      && emptied.result.Success?
      && Buckets.DeleteBucket(emptied.store, b, bucket).result.Success?
  {
    assert |TableOf(st, bucket)| > 0 by {
      assert New(key) in TableOf(st, bucket);
    }
    var emptied := DeleteObject(st, b, bucket, key);
    var t := TableOf(emptied.store, bucket);
    assert t.Keys == {} by {
      assert t == TableOf(st, bucket) - {New(key)};
    }
    assert |t| == 0;
  }
}

=== FILE: Paths.dfy ===
/** Hierarchical object paths: a path is its sequence of segments, written
    as a string with '/' between segments. */
module Paths {

  type Path = seq<string>

  const Separator: char := '/'

  /** Appended to the string form of a path by the V2 continuation token. */
  const Sentinel: char := '\0'

  /** Plain split of `s` at every separator; empty segments are kept, so the
      result always has at least one segment. */
  function Split(s: string): (segs: seq<string>)
    ensures |segs| >= 1
    decreases |s|
  {
    if |s| == 0 then [""]
    else
      var rest := Split(s[1..]);
      if s[0] == Separator then [""] + rest
      else [[s[0]] + rest[0]] + rest[1..]
  }

  /** `Path.String`: the segments separated by '/'. */
  function ToString(p: Path): string
  {
    if |p| == 0 then ""
    else if |p| == 1 then p[0]
    else p[0] + [Separator] + ToString(p[1..])
  }

  /** `paths.New`: the path of a key; the empty key is the empty path. */
  function New(s: string): Path
  {
    if s == "" then [] else Split(s)
  }

  /** `Path.Prepend(prefix)`: the segments of `prefix` followed by those of `p`. */
  function Prepend(p: Path, prefix: string): Path
  {
    New(prefix) + p
  }

  /** A path that `New` can produce: no segment holds a separator, and it is
      not the single empty segment (whose string form is the empty key). */
  ghost predicate Canonical(p: Path)
  {
    && (forall i :: 0 <= i < |p| ==> Separator !in p[i])
    && p != [""]
  }

  /** The path the store sees when a V2 token is fed back: the last segment
      carries the sentinel (an empty path becomes the sentinel alone). */
  function WithSentinel(p: Path): (q: Path)
    ensures |q| == if |p| == 0 then 1 else |p|
  {
    if |p| == 0 then [[Sentinel]]
    else p[..|p| - 1] + [p[|p| - 1] + [Sentinel]]
  }

  lemma {:induction false} StringOfSplit(s: string)
    ensures ToString(Split(s)) == s
    decreases |s|
  {
    if |s| > 0 {
      var rest := Split(s[1..]);
      StringOfSplit(s[1..]);
      if s[0] == Separator {
        assert Split(s) == [""] + rest;
        assert ([""] + rest)[1..] == rest;
      } else {
        var segs := [[s[0]] + rest[0]] + rest[1..];
        assert Split(s) == segs;
        if |rest| > 1 {
          assert segs[1..] == rest[1..];
          assert ToString(rest) == rest[0] + [Separator] + ToString(rest[1..]);
        }
      }
    }
  }

  /** The string form of the path of a key is the key itself. */
  lemma StringOfNew(s: string)
    ensures ToString(New(s)) == s
  {
    if s != "" {
      StringOfSplit(s);
    }
  }

  lemma {:induction false} SplitSegment(a: string)
    requires Separator !in a
    ensures Split(a) == [a]
    decreases |a|
  {
    if |a| > 0 {
      assert Separator !in a[1..] by {
        forall i | 0 <= i < |a[1..]| ensures a[1..][i] != Separator {
          assert a[1..][i] == a[i + 1];
        }
      }
      SplitSegment(a[1..]);
      assert [a[0]] + a[1..] == a;
    }
  }

  lemma {:induction false} SplitAfterSegment(a: string, b: string)
    requires Separator !in a
    ensures Split(a + [Separator] + b) == [a] + Split(b)
    decreases |a|
  {
    var s := a + [Separator] + b;
    if |a| == 0 {
      assert s == [Separator] + b;
      assert s[1..] == b;
    } else {
      assert s[1..] == a[1..] + [Separator] + b;
      assert Separator !in a[1..] by {
        forall i | 0 <= i < |a[1..]| ensures a[1..][i] != Separator {
          assert a[1..][i] == a[i + 1];
        }
      }
      SplitAfterSegment(a[1..], b);
      assert [a[0]] + a[1..] == a;
    }
  }

  lemma {:induction false} SplitOfString(p: Path)
    requires |p| >= 1
    requires forall i :: 0 <= i < |p| ==> Separator !in p[i]
    ensures Split(ToString(p)) == p
    decreases |p|
  {
    if |p| == 1 {
      SplitSegment(p[0]);
    } else {
      assert Separator !in p[0];
      SplitAfterSegment(p[0], ToString(p[1..]));
      SplitOfString(p[1..]);
      assert [p[0]] + p[1..] == p;
    }
  }

  /** A canonical path survives the trip through its string form. */
  lemma NewOfString(p: Path)
    requires Canonical(p)
    ensures New(ToString(p)) == p
  {
    if |p| >= 1 {
      assert ToString(p) != "" by {
        if |p| == 1 {
          assert p[0] != "";
        } else {
          assert |ToString(p)| >= 1;
        }
      }
      SplitOfString(p);
    }
  }

  lemma {:induction false} StringOfConcat(a: Path, b: Path)
    requires |a| >= 1 && |b| >= 1
    ensures ToString(a + b) == ToString(a) + [Separator] + ToString(b)
    decreases |a|
  {
    if |a| == 1 {
      assert (a + b)[1..] == b;
    } else {
      assert (a + b)[1..] == a[1..] + b;
      StringOfConcat(a[1..], b);
    }
  }

  /** The string form of a prepended path: the prefix, a separator, then
      the path; an empty prefix adds nothing and an empty path adds no
      separator. */
  lemma PrependString(p: Path, prefix: string)
    ensures prefix == "" ==> ToString(Prepend(p, prefix)) == ToString(p)
    ensures prefix != "" && |p| == 0 ==> ToString(Prepend(p, prefix)) == prefix
    ensures prefix != "" && |p| > 0 ==> ToString(Prepend(p, prefix)) == prefix + [Separator] + ToString(p)
  {
    if prefix != "" {
      StringOfNew(prefix);
      if |p| == 0 {
        assert Prepend(p, prefix) == New(prefix);
      } else {
        StringOfConcat(New(prefix), p);
      }
    } else {
      assert Prepend(p, prefix) == p;
    }
  }

  lemma {:induction false} StringExtendLast(p: Path, t: string)
    requires |p| >= 1
    ensures ToString(p[..|p| - 1] + [p[|p| - 1] + t]) == ToString(p) + t
    decreases |p|
  {
    var q := p[..|p| - 1] + [p[|p| - 1] + t];
    if |p| > 1 {
      var p' := p[1..];
      assert p'[..|p'| - 1] + [p'[|p'| - 1] + t] == q[1..];
      StringExtendLast(p', t);
    }
  }

  /** Decoding a V2 token (the string form of a canonical path followed by
      the sentinel) keeps the sentinel on the last segment: nothing is
      stripped before the token is treated as a key. */
  lemma TokenDecodes(p: Path)
    requires Canonical(p)
    ensures New(ToString(p) + [Sentinel]) == WithSentinel(p)
  {
    var q := WithSentinel(p);
    if |p| == 0 {
      assert ToString(p) + [Sentinel] == ToString(q);
    } else {
      StringExtendLast(p, [Sentinel]);
      assert ToString(p) + [Sentinel] == ToString(q);
    }
    assert Canonical(q) by {
      forall i | 0 <= i < |q| ensures Separator !in q[i] {
        if i < |p| - 1 {
          assert q[i] == p[i];
        } else {
          assert |p| == 0 || q[i] == p[|p| - 1] + [Sentinel];
        }
      }
    }
    NewOfString(q);
  }
}

=== FILE: Store.dfy ===
/** The two collaborators of the gateway, the bucket store and the
    per-bucket object store, as abstract state plus a backend record that
    says which calls fail and what the object store lists. */
module Store {
  import opened Wrappers
  import opened Paths
  import opened Errors

  /** Timestamps are opaque: the gateway only copies them. */
  type Time = int

  datatype ObjectMeta = ObjectMeta(
    modified: Time,
    size: int,
    checksum: string,
    contentType: string,
    userDefined: map<string, string>)

  datatype BucketMeta = BucketMeta(created: Time)

  /** The objects of one bucket, by path. */
  type ObjectTable = map<Path, ObjectMeta>

  /** Bucket names with their metadata, and the objects stored under each
      bucket name. */
  datatype State = State(
    buckets: map<string, BucketMeta>,
    objects: map<string, ObjectTable>)

  /** The collaborator calls the gateway makes. Bucket listing pages are
      numbered so that a fault can hit one page of the loop. */
  datatype Call =
    | BucketGet
    | BucketPut
    | BucketDelete
    | BucketList(page: nat)
    | GetObjectStore
    | ObjectList
    | ObjectGet
    | ObjectMetaRead
    | ObjectPut
    | ObjectDelete
    | RangeRead

  /** Arguments of the object store's `List`; the pivot is always nil here
      and the metadata flags are not modelled. */
  datatype ListQuery = ListQuery(
    prefix: Path,
    startAfter: Option<Path>,
    recursive: bool,
    limit: int)

  /** One entry of an object listing: an object with its metadata, or a
      prefix standing for the objects beneath it. */
  datatype ListItem = ListItem(path: Path, meta: ObjectMeta, isPrefix: bool)

  /** One page of an object listing, and whether more pages follow. */
  datatype Page = Page(items: seq<ListItem>, more: bool)

  datatype BucketListItem = BucketListItem(bucket: string, meta: BucketMeta)

  /** The behaviour of the stores beyond their state: a call named in
      `faults` fails with that error instead of doing its work; `lister`
      answers object listings (its ordering and prefix grouping belong to
      the object store); bucket listings come in pages of `bucketPageSize`. */
  datatype Backend = Backend(
    faults: map<Call, StoreError>,
    lister: (ObjectTable, ListQuery) -> Page,
    bucketPageSize: nat)

  /** The list the gateway uses to test a bucket for emptiness: recursive,
      from the start, at most one item. */
  const EmptinessProbe: ListQuery := ListQuery([], None, true, 1)

  function Invoke<T>(b: Backend, c: Call, normal: Result<T, StoreError>): Result<T, StoreError>
  {
    if c in b.faults then Failure(b.faults[c]) else normal
  }

  /** Bucket store `Get`. */
  function GetBucket(st: State, b: Backend, name: string): Result<BucketMeta, StoreError>
  {
    Invoke(b, BucketGet, if name in st.buckets then Success(st.buckets[name]) else Failure(KeyNotFound))
  }

  /** The objects stored under a bucket name (none if nothing was stored). */
  function TableOf(st: State, bucket: string): ObjectTable
  {
    if bucket in st.objects then st.objects[bucket] else map[]
  }

  /** Bucket store `GetObjectStore`: a view of the objects under the bucket
      name, with no existence check of its own. */
  function OpenObjects(st: State, b: Backend, bucket: string): Result<ObjectTable, StoreError>
  {
    Invoke(b, GetObjectStore, Success(TableOf(st, bucket)))
  }

  /** Object store `List`. */
  function ListPage(b: Backend, t: ObjectTable, q: ListQuery): Result<Page, StoreError>
  {
    Invoke(b, ObjectList, Success(b.lister(t, q)))
  }

  /** Object store lookups (`Get` and `Meta`), made through the call `c`. */
  function Lookup(b: Backend, c: Call, t: ObjectTable, p: Path): Result<ObjectMeta, StoreError>
  {
    Invoke(b, c, if p in t then Success(t[p]) else Failure(KeyNotFound))
  }

  function WithTable(st: State, bucket: string, t: ObjectTable): State
  {
    st.(objects := st.objects[bucket := t])
  }

  /** Bucket store `Put`: the bucket exists from now on. */
  function AddBucket(st: State, name: string, now: Time): State
  {
    st.(buckets := st.buckets[name := BucketMeta(now)])
  }

  /** Bucket store `Delete`. */
  function RemoveBucket(st: State, name: string): State
  {
    st.(buckets := st.buckets - {name})
  }

  /** What a mutating gateway call returns, the state it leaves, and the
      collaborator calls it made, in order. */
  datatype Outcome<T> = Outcome(result: Result<T, GatewayError>, store: State, calls: seq<Call>)
}

=== FILE: Wrappers.dfy ===
/** Failure-carrying datatypes shared by every module of the gateway model. */
module Wrappers {

  /** An optional value; `None` stands for Go's nil. */
  datatype Option<+T> = None | Some(value: T)

  /** Either a value or an error, for Go's `(value, err)` returns whose value
      is meaningless when `err != nil`. */
  datatype Result<+T, +E> = Success(value: T) | Failure(error: E)
}
